=== FILE: README.md ===
# Todo client: controller and editor state machines

A Dafny model of the client side of a single-user todo list. Two React
components hold all of its logic:

- the controller (`App`) keeps `todos`, `editId`, `editText` and `loading`,
  calls the backend on every mutation, and folds the reply back into the list;
- the editor (`TodoInput`) keeps a text buffer `input`, trims and submits it,
  handles Enter and Escape, and resets the buffer whenever its `initialValue`
  prop changes.

Every handler is a pure function from the old state to the new one. A
backend call is not performed: its reply is a parameter, `Ok(value)` or
`Fail`, and each handler also reports the `Request` it sent, so that a
contract can say what was asked as well as what was done with the answer.
`Session` wires the two components together as the controller renders them
and folds sequences of user events.

Modules:

- `TodoModel` (todo_model.dfy): `Todo`, `Id`, `Request`, `Reply`, `Option`,
  and JavaScript truthiness of ids.
- `JsString` (js_string.dfy): `String.prototype.trim` with the whitespace
  set of ECMA-262 (sections 12.2 and 12.3).
- `Collection` (collection.dfy): the `map` by id and the `filter` by id the
  handlers apply, plus id uniqueness.
- `App` (app.dfy): the controller's state and handlers.
- `TodoInput` (todo_input.dfy): the editor's behaviours.
- `Session` (session.dfy): both components together, the collection
  invariant over runs, and the keyboard and submit wiring.
- `Scenarios` (scenarios.dfy): concrete sessions with fixed replies.

Behaviours of the code that are easy to misread:

- Deleting a todo clears the selection unconditionally, not only when the
  deleted id is the selected one.
- Cancelling an edit leaves the buffer empty, not showing the todo's text.
  The editor first sets the buffer to `initialValue`, but the cancel clears
  `editText`. That changes `initialValue`, and the effect then resets the
  buffer to `""`. (`Session.EscapeCancelsEdit`, `Scenarios.EditThenEscape`.)
- `handleSaveEdit` itself only rejects the empty string. Whitespace-only text
  is rejected earlier, by the editor's trim.
- "Edit mode" is `!!editId`, which is JavaScript truthiness. A todo whose id is
  `0` or `""` can be selected, but the editor stays in add mode for it, and a
  submit creates a new todo (`Session.FalsyIdSubmitCreates`).
- Ids stay unique only while the backend keeps its own contract:
  - a created todo gets a fresh id;
  - an updated or toggled todo keeps its id;
  - the initial list has unique ids.

  The client never checks any of these (`Session.HonestReply`).
- A failed mutation still clears the editor's buffer. `setInput("")` runs
  as soon as `onSubmit` returns its promise, so a failed save loses the typed
  text (`Session.SubmitDispatch`).

## Model

| member | source | states |
|---|---|---|
| `JsString.Trim` | todo_frontend/src/TodoInput.js:36 | `trim` returns a slice of the input with only trimmable characters cut from either end, and no trimmable character at either end of the result; the result is empty exactly when the input is blank |
| `Collection.Replace` | todo_frontend/src/App.js:67-69 | the id-keyed `map` keeps the length; each entry with the id becomes the replacement and every other entry stays at its index |
| `Collection.RemoveId` | todo_frontend/src/App.js:84 | the id-keyed `filter` keeps exactly the entries without the id, in their original relative order, and its length drops by the number of entries with the id |
| `Collection.ReplaceKeepsIds` | todo_frontend/src/App.js:91-93 | a replacement that carries the same id leaves the id set unchanged and keeps ids unique |
| `Collection.ReplaceAbsent` | todo_frontend/src/App.js:91-93 | replacing an id that no entry carries leaves the list unchanged |
| `Collection.RemoveIdIds` | todo_frontend/src/App.js:84 | after the filter, the id set is the old id set minus the removed id |
| `Collection.RemoveIdUnique` | todo_frontend/src/App.js:84 | the filter keeps ids unique |
| `Collection.PrependFresh` | todo_frontend/src/App.js:54 | prepending a todo with a fresh id keeps ids unique and adds exactly that id |
| `App.Load` | todo_frontend/src/App.js:30-44 | the mount effect sends the list request; the list becomes the reply on success and empty on failure; loading ends either way; the selection is untouched |
| `App.AddTodo` | todo_frontend/src/App.js:52-55 | sends `Create(text)`; on success the server's todo is at index 0, the old list follows unchanged and the length grows by one; on failure nothing changes |
| `App.EditTodo` | todo_frontend/src/App.js:58-61 | selects the id and copies the current text into `editText`; sends nothing; the list is unchanged |
| `App.SaveEdit` | todo_frontend/src/App.js:64-73 | with no truthy selection or empty text, does nothing and sends nothing; otherwise sends `Update(editId, text)`; on success every entry with the selected id becomes the server's reply, all others keep their place, and the selection and its text are cleared; on failure nothing changes |
| `App.CancelEdit` | todo_frontend/src/App.js:76-79 | clears the selection and `editText` and leaves the list alone |
| `App.DeleteTodo` | todo_frontend/src/App.js:82-86 | sends `Remove(id)`; on success the list keeps exactly the entries with other ids, in order, and the selection is cleared whatever it was; on failure nothing changes |
| `App.ToggleComplete` | todo_frontend/src/App.js:89-94 | sends `SetCompleted(id, completed)`; on success entries with the id become the reply, the others keep their place, and the selection is untouched; on failure nothing changes |
| `App.ToggleUsesReply` | todo_frontend/src/App.js:89-94 | the requested completion flag has no effect on the resulting state: the shown flag is the server's |
| `App.Submit` | todo_frontend/src/App.js:121 | the editor's `onSubmit` sends an update of the selected id in edit mode and a create otherwise; on success in add mode the new todo is prepended, in edit mode the selected entries are replaced by the reply and the selection is cleared; a failed reply changes nothing |
| `TodoInput.Submit` | todo_frontend/src/TodoInput.js:34-40 | calls `onSubmit` exactly when the buffer is not blank, passing the trimmed text and clearing the buffer; a blank buffer calls nothing and is kept |
| `TodoInput.KeyDown` | todo_frontend/src/TodoInput.js:24-32 | Enter behaves exactly as submit; Escape reverts the buffer to `initialValue` and calls `onCancel` only in edit mode with a cancel callback, otherwise does nothing; any other key does nothing |
| `TodoInput.Resync` | todo_frontend/src/TodoInput.js:16-21 | when `initialValue` changes the buffer becomes the new value; otherwise the buffer is kept |
| `Session.Settle` | todo_frontend/src/TodoInput.js:16-21 | after a controller step the request and state are the step's; the `[initialValue]` effect resets the buffer to the new `editText` exactly when `editText` changed, and otherwise keeps it |
| `Session.Fire` | todo_frontend/src/App.js:108-128 | while loading no user event has any effect and only the load reply acts: the controller becomes the load handler's result and the editor mounts with its buffer at `editText`; after loading the reply is ignored; the Cancel button does nothing outside edit mode; row buttons run the whole edit, toggle (with the negated flag) and delete handlers on the row's id, so the controller ends in that handler's state; a click on a row that is not rendered does nothing; typing changes only the buffer |
| `Session.AddKeepsConsistent` | todo_frontend/src/App.js:52-55 | an add whose reply has a fresh id keeps the collection invariant |
| `Session.SaveKeepsConsistent` | todo_frontend/src/App.js:64-73 | a save whose reply keeps the selected id keeps the collection invariant |
| `Session.ToggleKeepsConsistent` | todo_frontend/src/App.js:89-94 | a toggle whose reply keeps the id keeps the collection invariant |
| `Session.DeleteKeepsConsistent` | todo_frontend/src/App.js:82-86 | a delete keeps the collection invariant, whatever the reply |
| `Session.FireKeepsConsistent` | todo_frontend/src/App.js:30-125 | every user event or load reply keeps ids unique and a selection pointing at a listed todo, provided the backend answers honestly |
| `Session.RunKeepsConsistent` | todo_frontend/src/App.js:30-125 | the invariant holds after any honestly answered sequence of events |
| `Session.RunFromStart` | todo_frontend/src/App.js:20-23 | from the first render, every honestly answered run keeps ids unique and the selection on a listed todo |
| `Session.FailureSemantics` | todo_frontend/src/App.js:34-94 | a failed initial load yields an empty list with loading ended; any other failed request leaves the controller state unchanged |
| `Session.EnterIsSubmit` | todo_frontend/src/TodoInput.js:24-40 | pressing Enter in the field has the same effect as submitting the form |
| `Session.BlankSubmitSendsNothing` | todo_frontend/src/TodoInput.js:34-40 | submitting a blank buffer sends no request and changes nothing |
| `Session.SubmitDispatch` | todo_frontend/src/App.js:120-125 | a non-blank buffer is sent trimmed, as an update of the selected id in edit mode and as a create otherwise; the buffer ends empty; a successful reply prepends the new todo in add mode, or replaces the selected entries and clears the selection in edit mode; a failed reply leaves the controller state unchanged |
| `Session.BufferFollowsEditText` | todo_frontend/src/TodoInput.js:16-21 | whenever an event changes the controller's `editText` (the editor's `initialValue`), the buffer ends up holding the new value |
| `Session.EscapeCancelsEdit` | todo_frontend/src/TodoInput.js:28-31 | Escape in edit mode sends nothing, clears the selection and its text, keeps the list, and leaves the buffer empty |
| `Session.OtherKeysIgnored` | todo_frontend/src/TodoInput.js:24-32 | Escape in add mode, or any unhandled key, changes nothing |
| `Session.EditClickedLoadsText` | todo_frontend/src/App.js:58-61 | selecting a row sets the selection and its text and loads that text into the buffer unless it equals the previous `editText`; edit mode follows only for a truthy id |
| `Session.FalsyIdSubmitCreates` | todo_frontend/src/App.js:121-123 | after selecting a row with a falsy id, a submit sends a create, not an update |
| `Scenarios.LoadFailureShowsEmptyList` | todo_frontend/src/App.js:34-42 | an unreachable store on first load gives an empty list, no selection and no loading indicator |
| `Scenarios.CreateShowsServerTodo` | todo_frontend/src/App.js:52-55 | creating "Buy milk" on an empty list shows exactly the server's todo |
| `Scenarios.EditThenEscape` | todo_frontend/src/TodoInput.js:28-31 | selecting then pressing Escape restores the controller state and leaves the buffer empty |
| `Scenarios.SaveShowsServerText` | todo_frontend/src/App.js:64-73 | a confirmed update shows the server's text and leaves edit mode |
| `Scenarios.DeleteFailureKeepsTodo` | todo_frontend/src/App.js:82-86 | a rejected delete keeps the todo |

## Left out

- The HTTP layer of todo_frontend/src/TodoAPI.js (URLs, methods, JSON parsing). Each call is modelled only by its `Request` and an abstract `Ok`/`Fail` reply, and transport and status failures are not told apart.
- Rendering in todo_frontend/src/TodoList.js. Its forwarding is modelled: edit passes the row's id and text, toggle passes `!completed`, delete passes the id. The empty-state message is not.
- Theme state and the `data-theme` attribute write, focus handling through `inputRef`, markup, styling and the footer date. None of them affects the list or the buffer.
- Interleaving of in-flight requests. Each handler is applied atomically once its reply is known, so the "last response wins" races are not modelled.
- The `maxLength={100}` and `minLength`/`required` input attributes. The browser enforces them, and the client logic does not.
- Ids that are non-integer numbers (including `NaN`) and any other JSON value. An id is an integer or a string.
- UTF-16 code units. Strings are sequences of Unicode scalar values, and `trim` removes only BMP characters, so the two views agree on its result.
- Unhandled promise rejections after a failed mutation. They have no effect on state beyond aborting the handler.
- The browser's implicit form submission when Enter is pressed in the field. Enter is modelled by the keydown handler alone.
- The intermediate `setLoading(true)` render inside the mount effect. The initial state is already loading, so only the final state after the reply is modelled.

=== FILE: app.dfy ===
/**
 The controller component: the state it keeps (`todos`, `editId`, `editText`,
 `loading`) and each of its handlers as a pure transition. A handler that
 awaits the backend takes the reply as a parameter and is applied atomically
 once that reply is known; a failed reply is a thrown error that aborts the
 handler before any state setter runs.
 */
module App {
  import opened TodoModel
  import opened Collection

  datatype AppState = AppState(
    todos: seq<Todo>,
    editId: Option<Id>,
    editText: string,
    loading: bool)

  /** The request a handler sent, if any, and the state once its reply is applied. */
  datatype Step = Step(request: Option<Request>, post: AppState)

  /** The state on first render: no todos, no selection, loading. */
  const Initial := AppState([], None, "", true)

  /** `!!editId`: a selection is active. A falsy id (`0`, `""`) counts as none. */
  predicate Editing(s: AppState) {
    s.editId.Some? && Truthy(s.editId.value)
  }

  /** The mount effect: fetch the list; on any failure show an empty list
      instead. Either way loading ends; the selection is not touched. */
  function Load(s: AppState, reply: Reply<seq<Todo>>): (t: Step)
    ensures t.request == Some(ListAll)
    ensures !t.post.loading
    ensures reply.Ok? ==> t.post.todos == reply.value
    ensures reply.Fail? ==> t.post.todos == []
    ensures t.post.editId == s.editId && t.post.editText == s.editText
  {
    var todos := match reply
      case Ok(data) => data
      case Fail => [];
    Step(Some(ListAll), s.(todos := todos, loading := false))
  }

  /** `handleAddTodo`: create on the server, then put the returned todo first. */
  function AddTodo(s: AppState, text: string, reply: Reply<Todo>): (t: Step)
    ensures t.request == Some(Create(text))
    ensures reply.Fail? ==> t.post == s
    ensures reply.Ok? ==>
      && |t.post.todos| == |s.todos| + 1
      && t.post.todos[0] == reply.value
      && t.post.todos[1..] == s.todos
      && t.post.editId == s.editId
      && t.post.editText == s.editText
      && t.post.loading == s.loading
  {
    match reply
    case Fail => Step(Some(Create(text)), s)
    case Ok(created) => Step(Some(Create(text)), s.(todos := [created] + s.todos))
  }

  /** `handleEditTodo`: select a todo for editing; nothing is sent. */
  function EditTodo(s: AppState, id: Id, currentText: string): (t: Step)
    ensures t.request == None
    ensures t.post.todos == s.todos && t.post.loading == s.loading
    ensures t.post.editId == Some(id) && t.post.editText == currentText
  {
    Step(None, s.(editId := Some(id), editText := currentText))
  }

  /** `handleSaveEdit`: only with an active selection and non-empty text;
      every entry with the selected id becomes the server's reply (not the
      typed text) and the selection is cleared. */
  function SaveEdit(s: AppState, newText: string, reply: Reply<Todo>): (t: Step)
    ensures !Editing(s) || newText == "" ==> t == Step(None, s)
    ensures Editing(s) && newText != "" ==>
      t.request == Some(Update(s.editId.value, newText))
    ensures Editing(s) && newText != "" && reply.Fail? ==> t.post == s
    ensures Editing(s) && newText != "" && reply.Ok? ==>
      && |t.post.todos| == |s.todos|
      && (forall i :: 0 <= i < |s.todos| && s.todos[i].id == s.editId.value ==>
            t.post.todos[i] == reply.value)
      && (forall i :: 0 <= i < |s.todos| && s.todos[i].id != s.editId.value ==>
            t.post.todos[i] == s.todos[i])
      && t.post.editId == None
      && t.post.editText == ""
      && t.post.loading == s.loading
  {
    if Editing(s) && newText != "" then
      var id := s.editId.value;
      match reply
      case Fail => Step(Some(Update(id, newText)), s)
      case Ok(updated) =>
        Step(Some(Update(id, newText)),
             s.(todos := Replace(s.todos, id, updated), editId := None, editText := ""))
    else
      Step(None, s)
  }

  /** `handleCancelEdit`: drop the selection and its text; nothing is sent. */
  function CancelEdit(s: AppState): (t: Step)
    ensures t.request == None
    ensures t.post.todos == s.todos && t.post.loading == s.loading
    ensures t.post.editId == None && t.post.editText == ""
  {
    Step(None, s.(editId := None, editText := ""))
  }

  /** `handleDeleteTodo`: delete on the server, then drop exactly the entries
      with that id, keeping the others in order, and clear the selection
      whatever it was. */
  function DeleteTodo(s: AppState, id: Id, reply: Reply<()>): (t: Step)
    ensures t.request == Some(Remove(id))
    ensures reply.Fail? ==> t.post == s
    ensures reply.Ok? ==>
      && (forall x :: x in t.post.todos <==> x in s.todos && x.id != id)
      && IsSubseq(t.post.todos, s.todos)
      && |t.post.todos| == |s.todos| - CountId(s.todos, id)
      && t.post.editId == None
      && t.post.editText == ""
      && t.post.loading == s.loading
  {
    match reply
    case Fail => Step(Some(Remove(id)), s)
    case Ok(_) =>
      var removed := s.(todos := RemoveId(s.todos, id));
      Step(Some(Remove(id)), CancelEdit(removed).post)
  }

  /** `handleToggleComplete`: send the requested completion flag, then put the
      server's reply in place of every entry with that id. The selection and
      its text are left alone. */
  function ToggleComplete(s: AppState, id: Id, completed: bool, reply: Reply<Todo>): (t: Step)
    ensures t.request == Some(SetCompleted(id, completed))
    ensures reply.Fail? ==> t.post == s
    ensures reply.Ok? ==>
      && |t.post.todos| == |s.todos|
      && (forall i :: 0 <= i < |s.todos| && s.todos[i].id == id ==> t.post.todos[i] == reply.value)
      && (forall i :: 0 <= i < |s.todos| && s.todos[i].id != id ==> t.post.todos[i] == s.todos[i])
      && t.post.editId == s.editId
      && t.post.editText == s.editText
      && t.post.loading == s.loading
  {
    match reply
    case Fail => Step(Some(SetCompleted(id, completed)), s)
    case Ok(updated) => Step(Some(SetCompleted(id, completed)), s.(todos := Replace(s.todos, id, updated)))
  }

  /** The editor's `onSubmit` prop: save while a selection is active, add otherwise. */
  function Submit(s: AppState, text: string, reply: Reply<Todo>): (t: Step)
    ensures Editing(s) && text != "" ==> t.request == Some(Update(s.editId.value, text))
    ensures Editing(s) && text == "" ==> t == Step(None, s)
    ensures !Editing(s) ==> t.request == Some(Create(text))
    ensures !Editing(s) && reply.Ok? ==> t.post == s.(todos := [reply.value] + s.todos)
    ensures Editing(s) && text != "" && reply.Ok? ==>
      t.post == s.(todos := Replace(s.todos, s.editId.value, reply.value), editId := None, editText := "")
    ensures reply.Fail? ==> t.post == s
  {
    if Editing(s) then SaveEdit(s, text, reply) else AddTodo(s, text, reply)
  }

  /** The toggle writes back the server's entry: the completion flag that was
      requested has no effect on the resulting state. */
  lemma ToggleUsesReply(s: AppState, id: Id, c1: bool, c2: bool, reply: Reply<Todo>)
    ensures ToggleComplete(s, id, c1, reply).post == ToggleComplete(s, id, c2, reply).post
  {
  }
}

=== FILE: collection.dfy ===
/**
 The list operations the client applies to its todo array: `map` that swaps in
 a server reply by id, `filter` that drops an id, and the id bookkeeping the
 collection invariant is stated in.
 */
module Collection {
  import opened TodoModel

  /** The ids present in a collection. */
  function Ids(todos: seq<Todo>): set<Id> {
    set t | t in todos :: t.id
  }

  /** No two entries share an id. */
  predicate UniqueIds(todos: seq<Todo>) {
    forall i, j :: 0 <= i < j < |todos| ==> todos[i].id != todos[j].id
  }

  /** `a` is `b` with some entries dropped and the rest kept in order. */
  predicate IsSubseq(a: seq<Todo>, b: seq<Todo>) {
    if a == [] then true
    else if b == [] then false
    else (a[0] == b[0] && IsSubseq(a[1..], b[1..])) || IsSubseq(a, b[1..])
  }

  /** Number of entries carrying `id`. */
  function CountId(todos: seq<Todo>, id: Id): nat {
    if todos == [] then 0
    else (if todos[0].id == id then 1 else 0) + CountId(todos[1..], id)
  }

  /** `todos.map(t => t.id === id ? updated : t)`: every entry with `id` becomes
      `updated`, every other entry stays where it was. */
  function Replace(todos: seq<Todo>, id: Id, updated: Todo): (r: seq<Todo>)
    ensures |r| == |todos|
    ensures forall i :: 0 <= i < |todos| && todos[i].id == id ==> r[i] == updated
    ensures forall i :: 0 <= i < |todos| && todos[i].id != id ==> r[i] == todos[i]
  {
    if todos == [] then []
    else [if todos[0].id == id then updated else todos[0]] + Replace(todos[1..], id, updated)
  }

  /** `todos.filter(t => t.id !== id)`: the entries without `id`, in their
      original order, and none of the others. */
  function RemoveId(todos: seq<Todo>, id: Id): (r: seq<Todo>)
    ensures forall t :: t in r <==> t in todos && t.id != id
    ensures |r| == |todos| - CountId(todos, id)
    ensures IsSubseq(r, todos)
  {
    if todos == [] then []
    else if todos[0].id == id then RemoveId(todos[1..], id)
    else
      var rest := RemoveId(todos[1..], id);
      assert ([todos[0]] + rest)[1..] == rest;
      [todos[0]] + rest
  }

  /** Replacing by id with a reply that carries the same id keeps the id of
      every position, so the id set and uniqueness are preserved. */
  lemma ReplaceKeepsIds(todos: seq<Todo>, id: Id, updated: Todo)
    requires updated.id == id
    ensures Ids(Replace(todos, id, updated)) == Ids(todos)
    ensures UniqueIds(todos) ==> UniqueIds(Replace(todos, id, updated))
  {
  }

  /** When no entry carries `id`, replacing by `id` changes nothing. */
  lemma ReplaceAbsent(todos: seq<Todo>, id: Id, updated: Todo)
    requires id !in Ids(todos)
    ensures Replace(todos, id, updated) == todos
  {
  }

  /** Filtering by id removes that id from the id set and keeps every other id. */
  lemma RemoveIdIds(todos: seq<Todo>, id: Id)
    ensures Ids(RemoveId(todos, id)) == Ids(todos) - {id}
  {
  }

  /** Uniqueness of a non-empty collection splits into its head and tail. */
  lemma UniqueCons(t: Todo, tail: seq<Todo>)
    ensures UniqueIds([t] + tail) ==> t.id !in Ids(tail) && UniqueIds(tail)
    ensures t.id !in Ids(tail) && UniqueIds(tail) ==> UniqueIds([t] + tail)
  {
    var r := [t] + tail;
    if UniqueIds(r) {
      forall i, j | 0 <= i < j < |tail| ensures tail[i].id != tail[j].id {
        assert tail[i] == r[i + 1] && tail[j] == r[j + 1];
      }
      forall u | u in tail ensures u.id != t.id {
        var j :| 0 <= j < |tail| && tail[j] == u;
        assert r[j + 1] == u && r[0] == t;
      }
    }
    if t.id !in Ids(tail) && UniqueIds(tail) {
      forall i, j | 0 <= i < j < |r| ensures r[i].id != r[j].id {
        if i == 0 {
          assert r[j] == tail[j - 1];
          assert tail[j - 1] in tail;
        } else {
          assert r[i] == tail[i - 1] && r[j] == tail[j - 1];
        }
      }
    }
  }

  /** Filtering a collection with unique ids yields a collection with unique ids. */
  lemma {:induction false} RemoveIdUnique(todos: seq<Todo>, id: Id)
    requires UniqueIds(todos)
    ensures UniqueIds(RemoveId(todos, id))
  {
    if todos != [] {
      var tail := todos[1..];
      assert todos == [todos[0]] + tail;
      UniqueCons(todos[0], tail);
      RemoveIdUnique(tail, id);
      if todos[0].id != id {
        var rest := RemoveId(tail, id);
        assert Ids(rest) <= Ids(tail);
        UniqueCons(todos[0], rest);
      }
    }
  }

  /** Prepending an entry whose id is not yet present keeps ids unique. */
  lemma PrependFresh(todos: seq<Todo>, t: Todo)
    requires UniqueIds(todos) && t.id !in Ids(todos)
    ensures UniqueIds([t] + todos)
    ensures Ids([t] + todos) == Ids(todos) + {t.id}
  {
  }
}

=== FILE: js_string.dfy ===
/**
 The part of JavaScript's string semantics the editor relies on:
 `String.prototype.trim` (ECMA-262, section 22.1.3.32) and the truthiness of
 the trimmed result.
 */
module JsString {

  /** A code point `trim` removes: ECMAScript WhiteSpace (section 12.2: TAB, VT,
      FF, ZWNBSP and the Unicode space separators) or LineTerminator
      (section 12.3: LF, CR, LS, PS). */
  predicate IsTrimmable(c: char) {
    || c == '\t' || c == '\n' || c == '\U{000B}' || c == '\U{000C}' || c == '\r'
    || c == ' ' || c == '\U{00A0}' || c == '\U{1680}'
    || ('\U{2000}' <= c <= '\U{200A}')
    || c == '\U{2028}' || c == '\U{2029}' || c == '\U{202F}' || c == '\U{205F}'
    || c == '\U{3000}' || c == '\U{FEFF}'
  }

  /** Every character of `s` is removed by `trim`. */
  predicate Blank(s: string) {
    forall i :: 0 <= i < |s| ==> IsTrimmable(s[i])
  }

  /** The index of the first character at or after `i` that `trim` keeps,
      or `|s|` if there is none. */
  function SkipStart(s: string, i: nat): (k: nat)
    requires i <= |s|
    ensures i <= k <= |s|
    ensures forall j :: i <= j < k ==> IsTrimmable(s[j])
    ensures k == |s| || !IsTrimmable(s[k])
    decreases |s| - i
  {
    if i < |s| && IsTrimmable(s[i]) then SkipStart(s, i + 1) else i
  }

  /** One past the last character in `s[k..e]` that `trim` keeps, or `k` if
      there is none. */
  function SkipEnd(s: string, k: nat, e: nat): (r: nat)
    requires k <= e <= |s|
    ensures k <= r <= e
    ensures forall j :: r <= j < e ==> IsTrimmable(s[j])
    ensures r == k || !IsTrimmable(s[r - 1])
    decreases e
  {
    if e > k && IsTrimmable(s[e - 1]) then SkipEnd(s, k, e - 1) else e
  }

  /** `s.trim()`: the slice of `s` left after removing blank runs at both ends.
      It is empty (falsy) exactly when `s` is blank. */
  function Trim(s: string): (r: string)
    ensures var k := SkipStart(s, 0);
      && k + |r| <= |s|
      && r == s[k..k + |r|]
      && (forall i :: 0 <= i < k ==> IsTrimmable(s[i]))
      && (forall i :: k + |r| <= i < |s| ==> IsTrimmable(s[i]))
    ensures r == [] <==> Blank(s)
    ensures r != [] ==> !IsTrimmable(r[0]) && !IsTrimmable(r[|r| - 1])
  {
    var k := SkipStart(s, 0);
    var e := SkipEnd(s, k, |s|);
    assert k < e ==> s[k..e][0] == s[k];
    s[k..e]
  }
}

=== FILE: scenarios.dfy ===
/**
 Concrete sessions: the backend's replies are fixed and the resulting screen
 state is computed from the first render.
 */
module Scenarios {
  import opened TodoModel
  import opened App
  import opened Session
  import TodoInput

  const milk := Todo(NumId(1), "Buy milk", false)

  /** The list has loaded with one todo, nothing selected. */
  const Loaded1 := UiState(AppState([milk], None, "", false), "")

  /** The store is unreachable on first load: an empty list, no error, and the
      screen leaves its loading state. */
  lemma LoadFailureShowsEmptyList()
    ensures Run(Start, [Loaded(Fail)]) == UiState(AppState([], None, "", false), "")
  {
  }

  /** Typing "Buy milk" and submitting on an empty list shows exactly the todo
      the backend created. */
  lemma CreateShowsServerTodo()
    ensures Run(Start, [Loaded(Ok([])), Typed("Buy milk"), Submitted(Ok(milk))]).app.todos == [milk]
  {
    var evs := [Loaded(Ok([])), Typed("Buy milk"), Submitted(Ok(milk))];
    var s1 := Fire(Start, evs[0]).next;
    assert s1 == UiState(AppState([], None, "", false), "");
    var s2 := Fire(s1, evs[1]).next;
    assert s2 == UiState(AppState([], None, "", false), "Buy milk");
    assert !JsString.IsTrimmable(s2.input[0]);
    var o := TodoInput.Submit(s2.input);
    assert o.call.OnSubmit?;
    var s3 := Fire(s2, evs[2]).next;
    assert s3.app == App.AddTodo(s2.app, o.call.text, Ok(milk)).post;
    assert evs[1..][1..][1..] == [];
    assert Run(Start, evs) == Run(s1, evs[1..]) == Run(s2, evs[1..][1..]) == s3;
  }

  /** Selecting the todo and pressing Escape drops the selection and leaves the
      list as it was; the buffer ends empty rather than showing "Buy milk". */
  lemma EditThenEscape()
    ensures var s := Run(Loaded1, [EditClicked(0), Pressed(TodoInput.Escape, Fail)]);
      && s.app == Loaded1.app
      && s.input == ""
  {
  }

  /** A confirmed update shows the server's text and leaves edit mode. */
  lemma SaveShowsServerText()
    ensures var oat := Todo(NumId(1), "Buy oat milk", false);
      var s := Run(Loaded1, [EditClicked(0), Typed("Buy oat milk"), Submitted(Ok(oat))]);
      && s.app.todos == [oat]
      && s.app.editId == None
  {
    var oat := Todo(NumId(1), "Buy oat milk", false);
    var evs := [EditClicked(0), Typed("Buy oat milk"), Submitted(Ok(oat))];
    var s1 := Fire(Loaded1, evs[0]).next;
    var s2 := Fire(s1, evs[1]).next;
    assert s2 == UiState(AppState([milk], Some(NumId(1)), "Buy milk", false), "Buy oat milk");
    assert !JsString.IsTrimmable(s2.input[0]);
    var s3 := Fire(s2, evs[2]).next;
    assert s3.app.todos == [oat] && s3.app.editId == None;
    assert evs[1..][1..][1..] == [];
    assert Run(Loaded1, evs) == Run(s1, evs[1..]) == Run(s2, evs[1..][1..]) == s3;
  }

  /** A delete the backend rejects keeps the todo. */
  lemma DeleteFailureKeepsTodo()
    ensures Run(Loaded1, [DeleteClicked(0, Fail)]).app.todos == [milk]
  {
  }
}

=== FILE: session.dfy ===
/**
 The controller and the editor wired together as the controller renders them:
 the editor gets `initialValue = editText`, `editMode = !!editId`, the cancel
 handler, and an `onSubmit` that saves or adds. List rows forward edit,
 toggle (with the negated flag) and delete clicks by row. While loading, only
 the loading message is shown, so no user event reaches either component.
 */
module Session {
  import opened TodoModel
  import opened Collection
  import opened App
  import TodoInput
  import JsString

  /** The controller's state and the editor's buffer. */
  datatype UiState = UiState(app: AppState, input: string)

  /** One thing that can happen, with the backend's reply to the request it
      sends, if it sends one. `row` indexes the rendered list. */
  datatype Event =
    | Loaded(list: Reply<seq<Todo>>)
    | Typed(value: string)
    | Pressed(key: TodoInput.Key, reply: Reply<Todo>)
    | Submitted(reply: Reply<Todo>)
    | CancelClicked
    | EditClicked(row: nat)
    | ToggleClicked(row: nat, reply: Reply<Todo>)
    | DeleteClicked(row: nat, ack: Reply<()>)

  /** The request an event sent, if any, and the state afterwards. */
  datatype Fired = Fired(request: Option<Request>, next: UiState)

  const Start := UiState(Initial, "")

  /** The props the controller passes to the editor. */
  function EditorProps(a: AppState): TodoInput.Props {
    TodoInput.Props(a.editText, Editing(a), true)
  }

  /** Re-render after the controller moved from `before` to `step.post`: the
      editor's `initialValue` effect runs if `editText` changed. */
  function Settle(before: AppState, step: Step, input: string): (f: Fired)
    ensures f.request == step.request && f.next.app == step.post
    ensures step.post.editText != before.editText ==> f.next.input == step.post.editText
    ensures step.post.editText == before.editText ==> f.next.input == input
  {
    Fired(step.request,
          UiState(step.post, TodoInput.Resync(input, EditorProps(before), EditorProps(step.post))))
  }

  /** Hand the editor's callback, if any, to the controller. */
  function Deliver(a: AppState, o: TodoInput.Outcome, reply: Reply<Todo>): Fired {
    match o.call
    case NoCall => Fired(None, UiState(a, o.input))
    case OnSubmit(text) => Settle(a, App.Submit(a, text, reply), o.input)
    case OnCancel => Settle(a, CancelEdit(a), o.input)
  }

  /** The effect of one event. */
  function Fire(u: UiState, ev: Event): (f: Fired)
    // while loading only the load reply has an effect, and only once
    ensures u.app.loading && !ev.Loaded? ==> f == Fired(None, u)
    ensures !u.app.loading && ev.Loaded? ==> f == Fired(None, u)
    ensures u.app.loading && ev.Loaded? ==>
      && f.request == Some(ListAll)
      && f.next.app == Load(u.app, ev.list).post
      && f.next.input == f.next.app.editText
    // the Cancel button exists only in edit mode
    ensures ev == CancelClicked && !Editing(u.app) ==> f == Fired(None, u)
    // row buttons forward the row's id, text and negated flag
    ensures !u.app.loading && ev.EditClicked? && ev.row < |u.app.todos| ==>
      && f.request == None
      && f.next.app == EditTodo(u.app, u.app.todos[ev.row].id, u.app.todos[ev.row].text).post
    ensures !u.app.loading && ev.ToggleClicked? && ev.row < |u.app.todos| ==>
      var t := u.app.todos[ev.row];
      && f.request == Some(SetCompleted(t.id, !t.completed))
      && f.next.app == ToggleComplete(u.app, t.id, !t.completed, ev.reply).post
    ensures !u.app.loading && ev.DeleteClicked? && ev.row < |u.app.todos| ==>
      && f.request == Some(Remove(u.app.todos[ev.row].id))
      && f.next.app == DeleteTodo(u.app, u.app.todos[ev.row].id, ev.ack).post
    ensures (ev.EditClicked? || ev.ToggleClicked? || ev.DeleteClicked?) && ev.row >= |u.app.todos| ==>
      f == Fired(None, u)
    // typing only changes the buffer
    ensures !u.app.loading && ev.Typed? ==> f == Fired(None, u.(input := ev.value))
  {
    var a := u.app;
    if a.loading then
      match ev
      case Loaded(list) =>
        // the editor mounts with its buffer set to `initialValue`
        var st := Load(a, list);
        Fired(st.request, UiState(st.post, st.post.editText))
      case _ => Fired(None, u)
    else
      match ev
      case Loaded(_) => Fired(None, u)
      case Typed(value) => Fired(None, u.(input := value))
      case Pressed(key, reply) => Deliver(a, TodoInput.KeyDown(u.input, EditorProps(a), key), reply)
      case Submitted(reply) => Deliver(a, TodoInput.Submit(u.input), reply)
      case CancelClicked =>
        // the Cancel button is rendered only in edit mode
        if Editing(a) then Settle(a, CancelEdit(a), u.input) else Fired(None, u)
      case EditClicked(row) =>
        if row < |a.todos| then
          var t := a.todos[row];
          Settle(a, EditTodo(a, t.id, t.text), u.input)
        else Fired(None, u)
      case ToggleClicked(row, reply) =>
        if row < |a.todos| then
          var t := a.todos[row];
          Settle(a, ToggleComplete(a, t.id, !t.completed, reply), u.input)
        else Fired(None, u)
      case DeleteClicked(row, reply) =>
        if row < |a.todos| then Settle(a, DeleteTodo(a, a.todos[row].id, reply), u.input)
        else Fired(None, u)
  }

  /** The state after a sequence of events. */
  function Run(u: UiState, evs: seq<Event>): UiState
    decreases |evs|
  {
    if evs == [] then u else Run(Fire(u, evs[0]).next, evs[1..])
  }

  /** The collection invariant: ids are unique, a selection names a listed
      todo, and nothing is selected before the list has loaded. */
  predicate Consistent(a: AppState) {
    && UniqueIds(a.todos)
    && (a.editId.Some? ==> a.editId.value in Ids(a.todos))
    && (a.loading ==> a.editId == None)
  }

  /** The todo carried by an event's reply, if it carries one. */
  function TodoReply(ev: Event): Reply<Todo> {
    match ev
    case Pressed(_, r) => r
    case Submitted(r) => r
    case ToggleClicked(_, r) => r
    case _ => Fail
  }

  /** The list carried by an event's reply, if it carries one. */
  function ListReply(ev: Event): Reply<seq<Todo>> {
    match ev
    case Loaded(r) => r
    case _ => Fail
  }

  /** The backend keeps its own contract: a listed collection has unique ids,
      a created todo gets a fresh id, an updated or toggled todo keeps its id. */
  predicate HonestReply(a: AppState, req: Request, ev: Event) {
    match req
    case ListAll => ListReply(ev).Ok? ==> UniqueIds(ListReply(ev).value)
    case Create(_) => TodoReply(ev).Ok? ==> TodoReply(ev).value.id !in Ids(a.todos)
    case Update(id, _) => TodoReply(ev).Ok? ==> TodoReply(ev).value.id == id
    case SetCompleted(id, _) => TodoReply(ev).Ok? ==> TodoReply(ev).value.id == id
    case Remove(_) => true
  }

  predicate Honest(u: UiState, ev: Event) {
    var f := Fire(u, ev);
    f.request.Some? ==> HonestReply(u.app, f.request.value, ev)
  }

  predicate HonestRun(u: UiState, evs: seq<Event>)
    decreases |evs|
  {
    evs == [] || (Honest(u, evs[0]) && HonestRun(Fire(u, evs[0]).next, evs[1..]))
  }

  /** A reply that reports failure. */
  predicate Failed(ev: Event) {
    match ev
    case Loaded(r) => r.Fail?
    case Pressed(_, r) => r.Fail?
    case Submitted(r) => r.Fail?
    case ToggleClicked(_, r) => r.Fail?
    case DeleteClicked(_, r) => r.Fail?
    case _ => false
  }

  /** Controller transitions that keep the invariant, one per handler. */
  lemma AddKeepsConsistent(a: AppState, text: string, reply: Reply<Todo>)
    requires Consistent(a)
    requires reply.Ok? ==> reply.value.id !in Ids(a.todos)
    ensures Consistent(AddTodo(a, text, reply).post)
  {
  }

  lemma SaveKeepsConsistent(a: AppState, text: string, reply: Reply<Todo>)
    requires Consistent(a)
    requires Editing(a) && text != "" && reply.Ok? ==> reply.value.id == a.editId.value
    ensures Consistent(SaveEdit(a, text, reply).post)
  {
  }

  lemma ToggleKeepsConsistent(a: AppState, id: Id, completed: bool, reply: Reply<Todo>)
    requires Consistent(a)
    requires reply.Ok? ==> reply.value.id == id
    ensures Consistent(ToggleComplete(a, id, completed, reply).post)
  {
  }

  lemma DeleteKeepsConsistent(a: AppState, id: Id, ack: Reply<()>)
    requires Consistent(a)
    ensures Consistent(DeleteTodo(a, id, ack).post)
  {
    RemoveIdUnique(a.todos, id);
  }

  /** Every event keeps the collection invariant as long as the backend
      answers honestly. */
  lemma FireKeepsConsistent(u: UiState, ev: Event)
    requires Consistent(u.app) && Honest(u, ev)
    ensures Consistent(Fire(u, ev).next.app)
  {
    var a := u.app;
    if !a.loading {
      match ev
      case Pressed(key, reply) =>
        DeliverKeepsConsistent(a, TodoInput.KeyDown(u.input, EditorProps(a), key), reply, ev);
      case Submitted(reply) =>
        DeliverKeepsConsistent(a, TodoInput.Submit(u.input), reply, ev);
      case ToggleClicked(row, reply) =>
        if row < |a.todos| {
          ToggleKeepsConsistent(a, a.todos[row].id, !a.todos[row].completed, reply);
        }
      case DeleteClicked(row, ack) =>
        if row < |a.todos| {
          DeleteKeepsConsistent(a, a.todos[row].id, ack);
        }
      case EditClicked(row) =>
        if row < |a.todos| {
          assert a.todos[row] in a.todos;
        }
      case _ =>
    }
  }

  lemma DeliverKeepsConsistent(a: AppState, o: TodoInput.Outcome, reply: Reply<Todo>, ev: Event)
    requires Consistent(a) && !a.loading
    requires TodoReply(ev) == reply
    requires var f := Deliver(a, o, reply);
      f.request.Some? ==> HonestReply(a, f.request.value, ev)
    ensures Consistent(Deliver(a, o, reply).next.app)
  {
  }

  /** Over any run the backend answers honestly, the invariant is kept. */
  lemma {:induction false} RunKeepsConsistent(u: UiState, evs: seq<Event>)
    requires Consistent(u.app) && HonestRun(u, evs)
    ensures Consistent(Run(u, evs).app)
    decreases |evs|
  {
    if evs != [] {
      FireKeepsConsistent(u, evs[0]);
      RunKeepsConsistent(Fire(u, evs[0]).next, evs[1..]);
    }
  }

  /** From the first render, every honestly answered run keeps ids unique and
      any selection pointing at a listed todo. */
  lemma RunFromStart(evs: seq<Event>)
    requires HonestRun(Start, evs)
    ensures UniqueIds(Run(Start, evs).app.todos)
    ensures Run(Start, evs).app.editId.Some? ==>
      Run(Start, evs).app.editId.value in Ids(Run(Start, evs).app.todos)
  {
    RunKeepsConsistent(Start, evs);
  }

  /** Failure semantics: a failed initial load shows an empty list and ends
      loading; any other failed request leaves the controller state as it was. */
  lemma FailureSemantics(u: UiState, ev: Event)
    requires Failed(ev)
    ensures var f := Fire(u, ev);
      f.request == Some(ListAll) ==> f.next.app == u.app.(todos := [], loading := false)
    ensures var f := Fire(u, ev);
      f.request.Some? && f.request != Some(ListAll) ==> f.next.app == u.app
  {
  }

  /** Enter in the field and the form's submit do the same thing. */
  lemma EnterIsSubmit(u: UiState, reply: Reply<Todo>)
    ensures Fire(u, Pressed(TodoInput.Enter, reply)) == Fire(u, Submitted(reply))
  {
  }

  /** A blank buffer is never sent: no request, no change at all. */
  lemma BlankSubmitSendsNothing(u: UiState, reply: Reply<Todo>)
    requires JsString.Blank(u.input)
    ensures Fire(u, Submitted(reply)) == Fired(None, u)
  {
  }

  /** A non-blank buffer is sent trimmed: as an update of the selected todo in
      edit mode, as a new todo otherwise. The buffer ends empty whatever the
      reply, so a failed save loses the typed text while the controller state
      stays as it was. */
  lemma SubmitDispatch(u: UiState, reply: Reply<Todo>)
    requires !u.app.loading && !JsString.Blank(u.input)
    ensures var f := Fire(u, Submitted(reply));
      && f.request == Some(if Editing(u.app) then Update(u.app.editId.value, JsString.Trim(u.input))
                           else Create(JsString.Trim(u.input)))
      && f.next.input == ""
      && (reply.Fail? ==> f.next.app == u.app)
      && (reply.Ok? && !Editing(u.app) ==>
            f.next.app == u.app.(todos := [reply.value] + u.app.todos))
      && (reply.Ok? && Editing(u.app) ==>
            f.next.app == u.app.(todos := Replace(u.app.todos, u.app.editId.value, reply.value),
                                 editId := None, editText := ""))
  {
  }

  /** The editor's buffer follows `editText`: whenever an event changes the
      controller's `editText`, the buffer ends up holding the new value. */
  lemma BufferFollowsEditText(u: UiState, ev: Event)
    ensures var v := Fire(u, ev).next;
      v.app.editText != u.app.editText ==> v.input == v.app.editText
  {
  }

  /** Escape in edit mode cancels: the selection and its text are dropped and
      the buffer ends empty. The editor first reverts the buffer to
      `initialValue`, but clearing `editText` changes that prop, and the
      effect then resets the buffer to the new, empty value. */
  lemma EscapeCancelsEdit(u: UiState, reply: Reply<Todo>)
    requires !u.app.loading && Editing(u.app)
    ensures var f := Fire(u, Pressed(TodoInput.Escape, reply));
      && f.request == None
      && f.next.app == u.app.(editId := None, editText := "")
      && f.next.input == ""
  {
  }

  /** Outside edit mode, Escape and any unhandled key do nothing. */
  lemma OtherKeysIgnored(u: UiState, key: TodoInput.Key, reply: Reply<Todo>)
    requires key.OtherKey? || (key == TodoInput.Escape && !Editing(u.app))
    ensures Fire(u, Pressed(key, reply)) == Fired(None, u)
  {
  }

  /** Clicking a row's edit button selects it and loads its text into the
      buffer, unless the text equals the previous `editText`, in which case the
      effect does not run and the buffer keeps what it had. Edit mode follows
      only when the id is truthy. */
  lemma EditClickedLoadsText(u: UiState, row: nat)
    requires !u.app.loading && row < |u.app.todos|
    ensures var t := u.app.todos[row];
      var v := Fire(u, EditClicked(row)).next;
      && v.app.editId == Some(t.id)
      && v.app.editText == t.text
      && v.app.todos == u.app.todos
      && (t.text != u.app.editText ==> v.input == t.text)
      && (t.text == u.app.editText ==> v.input == u.input)
      && (Editing(v.app) <==> Truthy(t.id))
  {
  }

  /** A todo whose id is falsy (say `0`) cannot be edited: after selecting it
      the editor stays in add mode and a submit creates a new todo. */
  lemma FalsyIdSubmitCreates(u: UiState, row: nat, reply: Reply<Todo>)
    requires !u.app.loading && row < |u.app.todos| && !Truthy(u.app.todos[row].id)
    ensures var v := Fire(u, EditClicked(row)).next;
      !JsString.Blank(v.input) ==>
        Fire(v, Submitted(reply)).request == Some(Create(JsString.Trim(v.input)))
  {
  }
}

=== FILE: todo_input.dfy ===
/**
 The text-entry component: a buffer `input` with props `initialValue`,
 `editMode` and an optional `onCancel`. Each behaviour returns the new buffer
 and the callback it invoked, if any.
 */
module TodoInput {
  import opened JsString

  datatype Props = Props(initialValue: string, editMode: bool, hasCancel: bool)

  /** The callback a behaviour invokes on its parent. */
  datatype Call = NoCall | OnSubmit(text: string) | OnCancel

  datatype Outcome = Outcome(input: string, call: Call)

  /** The keys the component distinguishes; any other key is `OtherKey`. */
  datatype Key = Enter | Escape | OtherKey

  /** `handleSubmit`: a buffer with non-blank content is submitted trimmed and
      then cleared; a blank buffer submits nothing and is kept. */
  function Submit(input: string): (o: Outcome)
    ensures o.call != OnCancel
    ensures o.call.OnSubmit? <==> !Blank(input)
    ensures o.call.OnSubmit? ==> o.input == "" && o.call.text == Trim(input)
    ensures o.call == NoCall ==> o.input == input
  {
    var text := Trim(input);
    if text != "" then Outcome("", OnSubmit(text)) else Outcome(input, NoCall)
  }

  /** `handleKeyDown`: Enter behaves as a submit; Escape reverts the buffer to
      `initialValue` and cancels, but only in edit mode with a cancel callback;
      anything else does nothing. */
  function KeyDown(input: string, p: Props, key: Key): (o: Outcome)
    ensures key == Enter ==> o == Submit(input)
    ensures key == Escape && p.editMode && p.hasCancel ==>
      o == Outcome(p.initialValue, OnCancel)
    ensures key == Escape && !(p.editMode && p.hasCancel) ==> o == Outcome(input, NoCall)
    ensures key.OtherKey? ==> o == Outcome(input, NoCall)
  {
    var text := Trim(input);
    if key == Enter && text != "" then Outcome("", OnSubmit(text))
    else if key == Escape && p.editMode && p.hasCancel then Outcome(p.initialValue, OnCancel)
    else Outcome(input, NoCall)
  }

  /** The effect keyed on `initialValue`: when the prop changes between
      renders the buffer is reset to the new value; otherwise it is kept. */
  function Resync(input: string, before: Props, after: Props): (r: string)
    ensures before.initialValue != after.initialValue ==> r == after.initialValue
    ensures before.initialValue == after.initialValue ==> r == input
  {
    if before.initialValue != after.initialValue then after.initialValue else input
  }
}

=== FILE: todo_model.dfy ===
/**
 The entities the todo client works with: the todo record the backend returns,
 the requests the client sends through its API wrapper, and the two shapes a
 reply can take. Every remote call is abstracted to its outcome: a parsed
 value or a failure (transport error or non-success status alike).
 */
module TodoModel {

  /** JavaScript `null` or a value: used for the edit selector. */
  datatype Option<+T> = None | Some(value: T)

  /** A backend-assigned id. The client accepts `number|string` and compares
      ids with `===`, which on these two cases is datatype equality. */
  datatype Id = NumId(n: int) | StrId(s: string)

  /** JavaScript truthiness of an id: `0` and `""` are falsy. */
  predicate Truthy(id: Id) {
    match id
    case NumId(n) => n != 0
    case StrId(s) => s != ""
  }

  /** A todo as the backend returns it. */
  datatype Todo = Todo(id: Id, text: string, completed: bool)

  /** The five calls of the API wrapper: list, create, update text,
      toggle completion, delete. */
  datatype Request =
    | ListAll
    | Create(text: string)
    | Update(id: Id, text: string)
    | SetCompleted(id: Id, completed: bool)
    | Remove(id: Id)

  /** The outcome of one awaited call: the parsed JSON body, or a thrown error. */
  datatype Reply<+T> = Ok(value: T) | Fail
}
